=== FILE: README.md ===
# Sei dashboard: data derivation, modelled in Dafny

The dashboard page fetches two JSON feeds: a historical TVL (total value
locked) series and a listing of trending liquidity pools. It turns them into
display data:

- the TVL history is normalised: numeric entries only, seconds turned into
  milliseconds, sorted by time;
- from that history it derives the current and previous value, the
  day-over-day percentage, the point count with its "since" day, and a chart
  of the last 60 points;
- each pool item becomes one table row, with its name, DEX and trade link
  chosen through fixed fallback chains;
- a small `useFetch` hook holds `data` / `error` / `loading` for each feed.
  It drops the results of requests that were superseded by a URL change or
  by unmount.

This project models those derivations and the hook as pure Dafny functions
over an explicit model of parsed JSON values, and proves their properties.

Modules:

- `Nullable` (js.dfy) defines `Option`, which stands for `T | null`, and
  `Result`, which stands for "yields a value or throws".
- `Js` (js.dfy) holds the JavaScript semantics the code relies on: JSON
  values, truthiness, `== null`, property reads that throw on
  null/undefined, `||` chains, `slice`, `Math.round`, `Math.max`, and the
  truncation `new Date(ms)` applies.
- `TimeSort` (time_sort.dfy) holds the points and their ascending sort by
  time.
- `TvlHistory` (tvl_history.dfy) holds normalisation, metrics, "since" and
  the chart.
- `TrendingPools` (trending_pools.dfy) holds the pool-row derivation.
- `FetchHook` (fetch_hook.dfy) is the hook as a state machine over `Start`,
  `Resolve(gen, settlement)` and `Teardown` events.
- `Dashboard` (dashboard.dfy) feeds each hook's `data` into its derivation.

Two behaviours of the code are easy to overlook, and the model keeps both:

- The derivations are not total. The code throws a TypeError in these
  cases, and the model returns `Failure` for each:
  - a null or undefined element in the TVL array (`p.tvl` is read on it);
  - a null item in the pools' `data` (`item.attributes` is read on it);
  - a truthy `data` that is not an array (it has no `map`);
  - a price or volume that `Number()` cannot convert: an object with its
    own `toString` field, or an array holding one;
  - a 24h change that is neither nullish nor a number (it has no `toFixed`).
- `dex` is the first *truthy* candidate, not the first non-empty string, and
  it is that value whatever its type. The same holds for `name` and `url`.

## Model

| member | source | states |
|---|---|---|
| `Js.GetProp` | page.tsx:67 | reading a property throws exactly when the value is null or undefined; otherwise it yields the object's own field or undefined |
| `Js.OptionalProp` | page.tsx:94 | `links?.self` yields undefined for a nullish `links` and never throws |
| `Js.Truthy` | page.tsx:82-94 | the values `!` and `\|\|` treat as false are exactly undefined, null, false, 0 and the empty string; arrays and objects, even empty ones, are true |
| `Js.ToPrimitiveThrows` | page.tsx:91-93 | only an object or an array can make `Number()` throw; an object does so when it has its own `toString` field, an array when one of its elements does |
| `Js.Or` | page.tsx:87-94 | an `a \|\| b \|\| …` chain yields the first truthy operand (every earlier one is falsy), or the last operand when none is truthy; the result is truthy iff some operand is |
| `Js.MaxReal` | page.tsx:74 | `Math.max` is an upper bound of both arguments and equal to one of them |
| `Js.SliceFrom` | page.tsx:77 | `slice(start)` with a negative start keeps the last `min(-start, n)` elements, always as a suffix of the input |
| `Js.Round` | page.tsx:78 | `Math.round` yields the integer within one half of its argument, halves going up |
| `Js.Trunc` | page.tsx:68 | the fraction is dropped toward zero: the result never has larger magnitude than the argument and is within 1 of it |
| `TimeSort.InsertByTime` | page.tsx:69 | inserting into a time-sorted history keeps it sorted and adds exactly that point |
| `TimeSort.SortByTime` | page.tsx:69 | the sort by `getTime()` difference yields a non-decreasing permutation of its input |
| `TimeSort.SortedEnds` | page.tsx:69 | in a sorted history the first point is the earliest and the last the latest |
| `TvlHistory.EpochMillis` | page.tsx:68 | the point's time is `date * 1000` truncated toward zero, and exactly `date * 1000` for whole seconds |
| `TvlHistory.ToPoint` | page.tsx:68 | a converted entry keeps its `tvl`, and its time is the entry's `date` in seconds turned into milliseconds |
| `TvlHistory.KeepNumeric` | page.tsx:67 | the filter throws iff some element is null or undefined; otherwise every entry with numeric `tvl` and `date` is kept as many times as it occurs, and nothing else is kept |
| `TvlHistory.KeptPointsAreNumericPoints` | page.tsx:66-68 | filtering then converting gives, in order, the converted numeric entries |
| `TvlHistory.NumericPointsMembership` | page.tsx:67-68 | a point is produced iff some raw entry is numeric and converts to it |
| `TvlHistory.Normalize` | page.tsx:64-70 | a non-array payload gives no points; an array gives a failure iff it has a nullish element, else a time-sorted permutation of its numeric entries' points |
| `TvlHistory.Summarize` | page.tsx:72-79 | the cards agree with the point count: current value and "since" day exist iff there is a point, previous value and delta iff there are two; they are the last value, the second-to-last value, the day of the first point, and a delta that times `max(1, previous)` equals `(current - previous) * 100`; the chart is the rounded samples of the last `min(60, count)` points, in order |
| `TvlHistory.NonArrayPayloadIsEmpty` | page.tsx:65 | a non-array payload gives count 0, null current, previous and delta, no "since" day and an empty chart |
| `TvlHistory.Current` | page.tsx:72 | `tvlNow` is null iff the history is empty, else the last point's value |
| `TvlHistory.Previous` | page.tsx:73 | `tvlPrev` is null iff there are fewer than two points, else the second-to-last value |
| `TvlHistory.PercentChange` | page.tsx:74 | the delta is null iff an operand is null; otherwise delta times `max(1, prev)` equals `(now - prev) * 100`, its divisor is never 0, and it is non-negative iff the value did not fall |
| `TvlHistory.DeltaOfHistory` | page.tsx:72-74 | the history's delta is null iff there are fewer than two points, else `(last - prev) / max(1, prev) * 100` |
| `TvlHistory.CurrentIsLatest` | page.tsx:69-73 | on the normalised history the current value belongs to a point no earlier than any other, and the previous point is no later than it |
| `TvlHistory.LatestIsNumericEntry` | page.tsx:66-72 | the last point of a time-sorted arrangement of the numeric entries' points carries the `tvl` of a numeric entry that no numeric entry follows in time |
| `TvlHistory.UtcDay` | page.tsx:78 | the day label of a time is the UTC day that contains it |
| `TvlHistory.Since` | page.tsx:111 | the "since" label is absent iff the history is empty, else it is the UTC day of the first point |
| `TvlHistory.SinceIsEarliest` | page.tsx:111 | on the normalised history the "since" day is the day of a point no later than any other, and no later than the day of any point |
| `TvlHistory.Sample` | page.tsx:78 | a chart sample's day contains the point's time and its `y` is the point's value rounded to the nearest integer |
| `TvlHistory.Chart` | page.tsx:76-79 | the chart has `min(60, n)` samples, and sample `i` comes from point `n - min(60, n) + i`, in order |
| `TvlHistory.ChartFollowsHistory` | page.tsx:76-79 | the chart ends on the rounded current value, and over a sorted history its days never go backwards |
| `TvlHistory.TwoPointNormalize` | page.tsx:64-70 | `[{date: 2000, tvl: 15}, {date: 1000, tvl: 10}]` normalises to points at 1 000 000 and 2 000 000 ms, in that order |
| `TvlHistory.TwoPointSummary` | page.tsx:72-79 | over those points: current 15, previous 10, delta 50, since day 0, chart samples (day 0, 10) and (day 0, 15) |
| `TrendingPools.Attributes` | page.tsx:86 | a row reads the item's attributes when they are truthy, otherwise an object in which every field is undefined |
| `TrendingPools.NumberOrNull` | page.tsx:91-93 | price and volume are null iff the field is null or undefined, so 0 stays a number; otherwise `Number()` throws iff converting the field to a primitive throws, and else yields the coercion of that very field |
| `TrendingPools.FixedOrNull` | page.tsx:92 | the 24h change is null iff its field is nullish, the formatted number when it is a number, and throws otherwise |
| `TrendingPools.TwoStepChain` | page.tsx:90 | a three-operand `\|\|` chain picks the first truthy of the first two, else the third |
| `TrendingPools.DexChain` | page.tsx:87 | the dex chain picks the first truthy of `dex`, `dex_slug`, `dex_name`, else the empty string |
| `TrendingPools.DeriveRow` | page.tsx:85-97 | a row fails iff the item is nullish, its price or volume cannot be coerced, or its change cannot be formatted; otherwise `id` is copied, `name`, `dex` and `url` follow their priority chains, and price, change and volume are null iff their own fields are nullish and otherwise come from those fields |
| `TrendingPools.PriceWithOwnToStringThrows` | page.tsx:91 | a price given as `{"toString": 0}` makes the row, and so the whole table derivation, throw |
| `TrendingPools.MapRows` | page.tsx:85 | mapping fails iff some item's row fails; otherwise there is one row per item, each the row of the item at the same index |
| `TrendingPools.DeriveRows` | page.tsx:81-98 | a falsy response or falsy `data` gives no rows; a truthy non-array `data` fails; an array gives one row per item in order with `id` unchanged, failing iff some item's row does |
| `TrendingPools.EmptyDataHasNoRows` | page.tsx:82-85 | a response with `data: []` gives no rows and no error |
| `TrendingPools.EmptyDexFallsThrough` | page.tsx:87 | attributes `{dex: "", dex_slug: "vortex"}` give the dex "vortex" |
| `FetchHook.IsOkStatus` | page.tsx:42 | `r.ok` holds exactly for the 2xx status class |
| `FetchHook.Outcome` | page.tsx:40-49 | a transport failure and a non-ok status (outside 200 to 299, carrying the status) fail; an ok response whose body does not parse fails with the parse error; a request succeeds iff the status is ok and the body parses, and then yields that body |
| `FetchHook.Step` | page.tsx:37-53 | starting an effect turns loading on and makes the new generation the live one; a result from a non-live generation changes nothing; a committed success sets data and clears error; a committed failure sets error and clears data; both end loading; teardown only cancels and leaves everything else as it was |
| `FetchHook.StepKeepsValid` | page.tsx:37-53 | every event preserves the invariant: data and error never both set, and a live request implies loading |
| `FetchHook.RunKeepsValid` | page.tsx:37-53 | the invariant holds after any sequence of events |
| `FetchHook.NeverDataAndError` | page.tsx:46-49 | from mount, along any events, data and error are never both set |
| `FetchHook.SupersededStays` | page.tsx:38-52 | once a generation is cancelled or settled, no later event makes it live again |
| `FetchHook.StaleResultIgnored` | page.tsx:46-51 | the late result of a superseded generation changes no state, whatever happened in between |
| `FetchHook.NewerStartWins` | page.tsx:37-53 | after a URL change the older request's result is dropped and the newer one's is committed |
| `FetchHook.TeardownDropsResult` | page.tsx:52 | after the cleanup, the torn-down request's result is dropped |
| `Dashboard.TvlView` | page.tsx:64-79 | the history hook's data is what the TVL section derives from: the view throws iff normalising that data throws, and otherwise shows the summary of the normalised history (its point count included); a null payload shows an empty history, and a non-empty history always has a current value |
| `Dashboard.CurrentIsLatestEntry` | page.tsx:64-72 | end to end, a current value shown in the TVL card is the `tvl` of a numeric entry of the raw payload that no other numeric entry follows in time |
| `Dashboard.PoolsView` | page.tsx:81-98 | the pools hook's data is what the table derives from: a null payload or a falsy `data` shows no rows; a truthy `data` that is not an array throws; a listing of items shows one row per item, each that item's row, and throws iff some item's row throws |
| `Dashboard.ErrorShowsEmptyData` | page.tsx:49 | whenever a hook holds an error, both sections derive an empty view from its cleared data |

## Left out

- `layout.tsx`, `Card.tsx` and the JSX of `page.tsx` (cards, chart, table, CSS classes, the loading/error ternaries) are left out: they are markup, with no logic.
- `Intl.NumberFormat` currency and number formatting and the axis and tooltip formatters are left out: they are locale formatting from a library.
- The `fetch` call itself, JSON parsing, the `ENDPOINTS` module and `SectionTitle` are left out: they are I/O or files that are not part of this model. A request is given to the model as a `Settlement` value.
- The optional `init` argument of `useFetch` is left out: it is passed through to `fetch`, and the effect restarts only on a URL change, which `Start` models.
- React's scheduling and memoisation are left out. The hook is a sequential machine over discrete events. One settlement is one atomic event: the `then`/`catch` commit and the `finally` that clears `loading` read the same flag.
- FetchHook.Step: a generation's request settles at most once. After a commit that generation stops being live, so a second `Resolve` of it is ignored and never reaches state.
- TrendingPools.NumberOrNull: the number `Number()` yields is kept symbolic (`NumberOf(arg)`). Whether it is null and whether it throws are modelled; its value, such as the NaN from a non-numeric string, is not.
- TrendingPools.FixedOrNull: the text of `toFixed(2)` is kept symbolic (`FixedTwo(x)`). Only when the call is made and when it throws are modelled.
- TvlHistory.UtcDay: the chart's `x` and the "since" label are modelled as the UTC day number. The `YYYY-MM-DD` text is not produced; that text names the UTC day only for years 0 to 9999.
- TvlHistory.EpochMillis: times beyond ±8.64e15 ms, which JavaScript turns into an Invalid Date, are not modelled.
- Numbers are modelled as finite reals. A payload with a literal too large for a double (`1e400` parses to Infinity) is not modelled. Neither is arithmetic that overflows. In JavaScript, an infinite `date` gives an Invalid Date, and its `toISOString()` throws a RangeError. Floating-point rounding of `* 1000`, of the delta division and of `Math.round` is not modelled either.
- TimeSort.SortByTime: stability on equal timestamps is not stated. The model's insertion sort is stable, but nothing on the page depends on the order of equal times.

=== FILE: dashboard.dfy ===
/** The page's wiring: the `data` of each `useFetch` hook is the raw
    payload its derivation reads. */
module Dashboard {
  import opened Nullable
  import opened Js
  import TvlHistory
  import TrendingPools
  import FetchHook

  /** The TVL cards and chart as derived from the history hook's state. */
  function TvlView(h: FetchHook.HookState): (r: Result<TvlHistory.TvlSummary, TypeError>)
    ensures h.data.Null? ==> r == Success(TvlHistory.TvlSummary(0, None, None, None, None, []))
    ensures r.Failure? <==> TvlHistory.Normalize(h.data).Failure?
    ensures r.Success? ==> r.value.count == |TvlHistory.Normalize(h.data).value|
    ensures r.Success? ==> r.value.count == 0 || r.value.current.Some?
    ensures r.Success? ==> r.value == TvlHistory.Summarize(TvlHistory.Normalize(h.data).value)
  {
    match TvlHistory.Normalize(h.data)
    case Failure(e) => Failure(e)
    case Success(tvl) => Success(TvlHistory.Summarize(tvl))
  }

  /** The trending table as derived from the pools hook's state. */
  function PoolsView(h: FetchHook.HookState): (r: Result<seq<TrendingPools.PoolRow>, TypeError>)
    ensures h.data.Null? ==> r == Success([])
    ensures Truthy(h.data) && !Truthy(Lookup(h.data, "data")) ==> r == Success([])
    ensures Truthy(h.data) && Truthy(Lookup(h.data, "data")) && !Lookup(h.data, "data").Arr? ==> r.Failure?
    // a listing of items gives one row per item, unless some item's row throws
    ensures Truthy(h.data) && Lookup(h.data, "data").Arr? ==>
              var items := Lookup(h.data, "data").items;
              && (r.Failure? <==> exists i :: 0 <= i < |items| && TrendingPools.RowThrows(items[i]))
              && (r.Success? ==> |r.value| == |items|)
              && (r.Success? ==> forall i :: 0 <= i < |items| ==>
                                   Success(r.value[i]) == TrendingPools.DeriveRow(items[i], TrendingPools.SelfLink(h.data)))
  {
    TrendingPools.DeriveRows(h.data)
  }

  /** End to end: the value the TVL card shows as current is the `tvl` of a
      numeric entry of the raw payload, and no numeric entry of the payload
      is later than that one. */
  lemma CurrentIsLatestEntry(h: FetchHook.HookState)
    ensures
      var v := TvlView(h);
      v.Success? && v.value.current.Some? ==>
        && h.data.Arr?
        && exists i :: 0 <= i < |h.data.items| && TvlHistory.IsNumericEntry(h.data.items[i])
             && Lookup(h.data.items[i], "tvl").n == v.value.current.value
             && forall j :: 0 <= j < |h.data.items| && TvlHistory.IsNumericEntry(h.data.items[j]) ==>
                  TvlHistory.ToPoint(h.data.items[j]).time <= TvlHistory.ToPoint(h.data.items[i]).time
  {
    var v := TvlView(h);
    if v.Success? && v.value.current.Some? {
      ViewCurrentIsLast(h);
      TvlHistory.LatestIsNumericEntry(h.data.items, TvlHistory.Normalize(h.data).value, v.value.current.value);
    }
  }

  /** A shown current value comes from the last point of the normalised
      history of an array payload. */
  lemma ViewCurrentIsLast(h: FetchHook.HookState)
    requires TvlView(h).Success? && TvlView(h).value.current.Some?
    ensures h.data.Arr? && TvlHistory.Normalize(h.data).Success?
    ensures var tvl := TvlHistory.Normalize(h.data).value;
            |tvl| > 0 && TvlView(h).value.current.value == tvl[|tvl| - 1].tvl
  {
  }

  /** Whatever events a hook has seen since mount, while it holds an error
      both sections derive from a null payload: no points, no rows. */
  lemma {:induction false} ErrorShowsEmptyData(events: seq<FetchHook.Event>)
    ensures
      var h := FetchHook.Run(FetchHook.Initial, events);
      h.error.Some? ==>
        && TvlView(h) == Success(TvlHistory.TvlSummary(0, None, None, None, None, []))
        && PoolsView(h) == Success([])
  {
    FetchHook.NeverDataAndError(events);
  }
}

=== FILE: fetch_hook.dfy ===
/** The `useFetch` hook as a sequential state machine. Each run of its effect
    (on mount and on every URL change) is a numbered generation with its own
    `cancelled` flag; the effect's cleanup sets that flag, and a settled
    request writes state only while its flag is still clear. */
module FetchHook {
  import opened Nullable
  import opened Js

  /** Why a request failed, as the hook's `error` records it. */
  datatype FetchError =
    | Transport(reason: string)   // `fetch` itself rejected
    | HttpStatus(status: int)     // `Request failed: ${r.status}` for a non-ok response
    | MalformedBody               // `r.json()` rejected

  /** How one request settled: the transport failed, or a response came back
      with a status and, when its body parsed as JSON, that body. */
  datatype Settlement =
    | NetworkFailed(reason: string)
    | Responded(status: int, body: Option<JsValue>)

  datatype Event =
    | Start                                  // the effect runs: mount or a new URL
    | Resolve(gen: nat, settlement: Settlement)  // the request of generation `gen` settles
    | Teardown                               // the effect's cleanup on unmount

  /** `data` is `null` (the JSON value) when absent. `live` is the generation
      whose `cancelled` flag is clear and whose request has not yet settled;
      every other generation's result is dropped. `nextGen` numbers the next
      effect run. */
  datatype HookState = HookState(
    data: JsValue,
    error: Option<FetchError>,
    loading: bool,
    live: Option<nat>,
    nextGen: nat)

  /** `useState(null)`, `useState(null)`, `useState(true)`, before the first
      effect has run. */
  const Initial: HookState := HookState(Null, None, true, None, 0)

  /** `Response.ok`: a status in the range 200 to 299, the 2xx class. */
  predicate IsOkStatus(status: int)
    ensures IsOkStatus(status) <==> status / 100 == 2
  {
    200 <= status <= 299
  }

  /** The promise chain up to the commit: a non-ok status throws before the
      body is read; otherwise the parsed body, or the parse failure. */
  function Outcome(s: Settlement): (r: Result<JsValue, FetchError>)
    ensures s.NetworkFailed? ==> r == Failure(Transport(s.reason))
    ensures s.Responded? && !IsOkStatus(s.status) ==> r == Failure(HttpStatus(s.status))
    ensures s.Responded? && IsOkStatus(s.status) && s.body.None? ==> r == Failure(MalformedBody)
    ensures r.Success? <==> s.Responded? && IsOkStatus(s.status) && s.body.Some?
    ensures r.Success? ==> r.value == s.body.value
  {
    match s
    case NetworkFailed(reason) => Failure(Transport(reason))
    case Responded(status, body) =>
      if !IsOkStatus(status) then Failure(HttpStatus(status))
      else if body.None? then Failure(MalformedBody)
      else Success(body.value)
  }

  /** The state after one event. */
  function Step(s: HookState, e: Event): (t: HookState)
    // starting an effect: loading is on, the new generation is the only live one
    ensures e.Start? ==> t.loading && t.live == Some(s.nextGen) && t.nextGen == s.nextGen + 1
    ensures e.Start? ==> t.data == s.data && t.error == s.error
    // a result whose cancelled flag is set changes nothing
    ensures e.Resolve? && s.live != Some(e.gen) ==> t == s
    // a committed result ends loading, and either sets data and clears error
    // or sets error and clears data
    ensures e.Resolve? && s.live == Some(e.gen) ==> !t.loading && t.live.None? && t.nextGen == s.nextGen
    ensures e.Resolve? && s.live == Some(e.gen) && Outcome(e.settlement).Success? ==>
              t.data == Outcome(e.settlement).value && t.error.None?
    ensures e.Resolve? && s.live == Some(e.gen) && Outcome(e.settlement).Failure? ==>
              t.error == Some(Outcome(e.settlement).error) && t.data.Null?
    // cleanup only sets the flag
    ensures e.Teardown? ==>
              t.live.None? && t.data == s.data && t.error == s.error && t.loading == s.loading
              && t.nextGen == s.nextGen
  {
    match e
    case Start =>
      s.(loading := true, live := Some(s.nextGen), nextGen := s.nextGen + 1)
    case Resolve(gen, settlement) =>
      if s.live != Some(gen) then
        s
      else
        (match Outcome(settlement)
         case Success(json) => s.(data := json, error := None, loading := false, live := None)
         case Failure(err) => s.(data := Null, error := Some(err), loading := false, live := None))
    case Teardown =>
      s.(live := None)
  }

  /** The state after a sequence of events. */
  function Run(s: HookState, events: seq<Event>): (t: HookState)
    decreases |events|
  {
    if |events| == 0 then s else Run(Step(s, events[0]), events[1..])
  }

  /** What every reachable state satisfies: data and error are never both
      set, a live request keeps `loading` on, and the live generation is one
      that has been started. */
  ghost predicate Valid(s: HookState) {
    && (s.error.Some? ==> s.data.Null?)
    && (s.live.Some? ==> s.loading && s.live.value < s.nextGen)
  }

  lemma StepKeepsValid(s: HookState, e: Event)
    requires Valid(s)
    ensures Valid(Step(s, e))
  {
  }

  lemma {:induction false} RunKeepsValid(s: HookState, events: seq<Event>)
    requires Valid(s)
    ensures Valid(Run(s, events))
    decreases |events|
  {
    if |events| > 0 {
      StepKeepsValid(s, events[0]);
      RunKeepsValid(Step(s, events[0]), events[1..]);
    }
  }

  /** Along any event sequence from mount, data and error are never both set. */
  lemma NeverDataAndError(events: seq<Event>)
    ensures Run(Initial, events).error.Some? ==> Run(Initial, events).data.Null?
  {
    RunKeepsValid(Initial, events);
  }

  /** Generation `g` is superseded: it has been started, and its cancelled
      flag is set or its request has settled. */
  ghost predicate Superseded(s: HookState, g: nat) {
    g < s.nextGen && s.live != Some(g)
  }

  lemma {:induction false} SupersededStays(s: HookState, g: nat, events: seq<Event>)
    requires Superseded(s, g)
    ensures Superseded(Run(s, events), g)
    decreases |events|
  {
    if |events| > 0 {
      SupersededStays(Step(s, events[0]), g, events[1..]);
    }
  }

  /** The stale-response guard: once a generation is superseded, whatever
      happens afterwards, its late result changes no state. */
  lemma StaleResultIgnored(s: HookState, g: nat, events: seq<Event>, late: Settlement)
    requires Superseded(s, g)
    ensures Step(Run(s, events), Resolve(g, late)) == Run(s, events)
  {
    SupersededStays(s, g, events);
  }

  /** A URL change supersedes the running request: after a second `Start`
      the first generation's result is dropped, while the newest
      generation's result is still committed. */
  lemma NewerStartWins(s: HookState, late: Settlement, latest: Settlement)
    ensures
      var t := Step(Step(s, Start), Start);
      && Step(t, Resolve(s.nextGen, late)) == t
      && !Step(t, Resolve(s.nextGen + 1, latest)).loading
  {
    var t := Step(Step(s, Start), Start);
    assert t.live == Some(s.nextGen + 1);
  }

  /** After teardown no result of the torn-down generation reaches state. */
  lemma TeardownDropsResult(s: HookState, late: Settlement)
    ensures
      var t := Step(Step(s, Start), Teardown);
      Step(t, Resolve(s.nextGen, late)) == t
  {
    var t := Step(Step(s, Start), Teardown);
    assert t.live.None?;
  }
}

=== FILE: js.dfy ===
/** The optional and failure-carrying values the derivation passes around.
    `Option` stands for a TypeScript `T | null`; `Result` for an expression
    that either yields a value or throws. */
module Nullable {

  datatype Option<+T> = None | Some(value: T)

  datatype Result<+T, +E> = Success(value: T) | Failure(error: E)
}

/** The slice of JavaScript the dashboard's derivation code relies on: the
    shape of a parsed JSON value, truthiness, `== null`, property reads,
    `||` chains, `Array.prototype.slice`, `Math.round`, `Math.max` and the
    truncation `new Date(ms)` applies to its argument. */
module Js {
  import opened Nullable

  /** A value produced by `JSON.parse`, plus `undefined` for a missing
      property. A number is modelled as a finite real: a literal too large
      for a double, which parses to an infinity, is outside this model. */
  datatype JsValue =
    | Undefined
    | Null
    | Bool(b: bool)
    | Num(n: real)
    | Str(s: string)
    | Arr(items: seq<JsValue>)
    | Obj(props: map<string, JsValue>)

  /** What JavaScript throws when a property of `null` or `undefined` is
      read, or when something that is not a function is called. */
  datatype TypeError = TypeError

  /** `v == null`: loose equality with null holds for null and undefined only. */
  predicate IsNullish(v: JsValue) {
    v.Null? || v.Undefined?
  }

  /** ToBoolean of a JSON value: false, 0, "", null and undefined are falsy,
      every other value (an empty array or object included) is truthy. */
  predicate Truthy(v: JsValue)
    ensures !Truthy(v) <==> v in {Undefined, Null, Bool(false), Num(0.0), Str("")}
  {
    match v
    case Undefined => false
    case Null => false
    case Bool(b) => b
    case Num(n) => n != 0.0
    case Str(s) => s != ""
    case Arr(_) => true
    case Obj(_) => true
  }

  /** Whether converting a JSON value to a primitive throws, as `Number(v)`
      does through ToPrimitive. The conversion tries `valueOf` and then
      `toString`, skipping any that is not callable; a field of a parsed
      JSON object is never callable. So an object with its own `toString`
      field has no usable method and throws, while one without it becomes
      "[object Object]". An array converts by joining its elements, which
      throws exactly when converting one of them does. */
  predicate ToPrimitiveThrows(v: JsValue)
    ensures ToPrimitiveThrows(v) ==> v.Obj? || v.Arr?
  {
    match v
    case Obj(m) => "toString" in m
    case Arr(xs) => exists i :: 0 <= i < |xs| && ToPrimitiveThrows(xs[i])
    case _ => false
  }

  /** `v[key]` on a value that is not null or undefined. Only a plain object
      has own properties of the names the dashboard reads; any other value
      (a number, a string, an array) reads them as undefined. */
  function Lookup(v: JsValue, key: string): (r: JsValue)
    requires !IsNullish(v)
    ensures v.Obj? && key in v.props ==> r == v.props[key]
    ensures !(v.Obj? && key in v.props) ==> r.Undefined?
  {
    match v
    case Obj(m) => if key in m then m[key] else Undefined
    case _ => Undefined
  }

  /** `v.key` as an expression that may throw. */
  function GetProp(v: JsValue, key: string): (r: Result<JsValue, TypeError>)
    ensures r.Failure? <==> IsNullish(v)
    ensures r.Success? ==> r.value == Lookup(v, key)
  {
    if IsNullish(v) then Failure(TypeError) else Success(Lookup(v, key))
  }

  /** `v?.key`: optional chaining yields undefined instead of throwing. */
  function OptionalProp(v: JsValue, key: string): (r: JsValue)
    ensures IsNullish(v) ==> r.Undefined?
    ensures GetProp(v, key).Success? ==> r == GetProp(v, key).value
  {
    if IsNullish(v) then Undefined else Lookup(v, key)
  }

  /** `xs[0] || xs[1] || ... || xs[n-1]`: the first truthy operand, or the
      last operand when none is truthy. */
  function Or(xs: seq<JsValue>): (r: JsValue)
    requires |xs| > 0
    ensures r in xs
    ensures Truthy(r) <==> exists i :: 0 <= i < |xs| && Truthy(xs[i])
    ensures !Truthy(r) ==> r == xs[|xs| - 1]
    ensures Truthy(r) ==>
              exists k :: 0 <= k < |xs| && xs[k] == r && forall j :: 0 <= j < k ==> !Truthy(xs[j])
  {
    if Truthy(xs[0]) || |xs| == 1 then
      xs[0]
    else
      var rest := Or(xs[1..]);
      assert forall i :: 1 <= i < |xs| ==> xs[i] == xs[1..][i - 1];
      if Truthy(rest) then
        var k' :| 0 <= k' < |xs[1..]| && xs[1..][k'] == rest && forall j :: 0 <= j < k' ==> !Truthy(xs[1..][j]);
        assert xs[k' + 1] == rest;
        rest
      else
        rest
  }

  function Min(a: int, b: int): (r: int)
    ensures r <= a && r <= b
    ensures r == a || r == b
  {
    if a <= b then a else b
  }

  function Max(a: int, b: int): (r: int)
    ensures r >= a && r >= b
    ensures r == a || r == b
  {
    if a >= b then a else b
  }

  /** `Math.max(a, b)` on finite numbers. */
  function MaxReal(a: real, b: real): (r: real)
    ensures r >= a && r >= b
    ensures r == a || r == b
  {
    if a >= b then a else b
  }

  /** `s.slice(start)` with the end left out: a negative start counts from
      the end and is clamped at 0, a non-negative one is clamped at the
      length. The result is always a suffix of `s`. */
  function SliceFrom<T>(s: seq<T>, start: int): (r: seq<T>)
    ensures start < 0 ==> |r| == Min(-start, |s|)
    ensures start >= 0 ==> |r| == Max(0, |s| - start)
    ensures r == s[|s| - |r|..]
  {
    var from := if start < 0 then Max(|s| + start, 0) else Min(start, |s|);
    s[from..]
  }

  /** `Math.round(x)`: the nearest integer, halves rounded up. */
  function Round(x: real): (r: int)
    ensures r as real - 0.5 <= x < r as real + 0.5
  {
    (x + 0.5).Floor
  }

  /** ToIntegerOrInfinity on a finite number, as `new Date(ms)` applies it:
      the fraction is dropped toward zero. */
  function Trunc(x: real): (r: int)
    ensures x >= 0.0 ==> 0 <= r && r as real <= x < r as real + 1.0
    ensures x < 0.0 ==> r <= 0 && r as real - 1.0 < x <= r as real
  {
    if x >= 0.0 then x.Floor else -((-x).Floor)
  }
}

=== FILE: time_sort.dfy ===
/** Ordering of normalised TVL points by their epoch-millisecond time, as the
    comparator `a.date.getTime() - b.date.getTime()` orders them. */
module TimeSort {

  /** A normalised history point: `time` is the value `getTime()` returns
      for its `Date`, `tvl` the locked value. */
  datatype TvlPoint = TvlPoint(time: int, tvl: real)

  ghost predicate SortedByTime(s: seq<TvlPoint>) {
    forall i, j :: 0 <= i < j < |s| ==> s[i].time <= s[j].time
  }

  /** Puts `p` in front of the first point that is not earlier than it, so
      points with equal times keep their relative order. */
  function InsertByTime(p: TvlPoint, s: seq<TvlPoint>): (r: seq<TvlPoint>)
    requires SortedByTime(s)
    ensures SortedByTime(r)
    ensures multiset(r) == multiset(s) + multiset{p}
    ensures |r| == |s| + 1
    ensures forall i :: 0 <= i < |r| ==> r[i] == p || r[i] in s
  {
    if |s| == 0 || p.time <= s[0].time then
      [p] + s
    else
      var tail := InsertByTime(p, s[1..]);
      ConsSorted(s, p, tail);
      [s[0]] + tail
  }

  /** Putting the head of `s` back in front of `p` inserted into the rest of
      `s` keeps the order when `p` is later than that head. */
  lemma ConsSorted(s: seq<TvlPoint>, p: TvlPoint, tail: seq<TvlPoint>)
    requires SortedByTime(s) && |s| > 0 && s[0].time < p.time
    requires SortedByTime(tail)
    requires multiset(tail) == multiset(s[1..]) + multiset{p}
    requires forall i :: 0 <= i < |tail| ==> tail[i] == p || tail[i] in s[1..]
    ensures SortedByTime([s[0]] + tail)
    ensures multiset([s[0]] + tail) == multiset(s) + multiset{p}
    ensures forall i :: 0 <= i < |tail| + 1 ==> ([s[0]] + tail)[i] == p || ([s[0]] + tail)[i] in s
  {
    assert s == [s[0]] + s[1..];
    var r := [s[0]] + tail;
    forall i | 0 <= i < |tail|
      ensures s[0].time <= tail[i].time && (tail[i] == p || tail[i] in s)
    {
      if tail[i] != p {
        var k :| 0 <= k < |s[1..]| && s[1..][k] == tail[i];
        assert s[k + 1] == tail[i];
      }
    }
    assert forall i :: 1 <= i < |r| ==> r[i] == tail[i - 1];
  }

  /** The ascending sort of the history by time. */
  function SortByTime(s: seq<TvlPoint>): (r: seq<TvlPoint>)
    ensures SortedByTime(r)
    ensures multiset(r) == multiset(s)
    ensures |r| == |s|
  {
    if |s| == 0 then
      []
    else
      assert s == [s[0]] + s[1..];
      InsertByTime(s[0], SortByTime(s[1..]))
  }

  /** In a sorted history the first point is the earliest and the last the
      latest. */
  lemma SortedEnds(s: seq<TvlPoint>)
    requires SortedByTime(s) && |s| > 0
    ensures forall i :: 0 <= i < |s| ==> s[0].time <= s[i].time <= s[|s| - 1].time
  {
  }
}

=== FILE: trending_pools.dfy ===
/** The trending-pools pipeline of the dashboard page: each item of the
    pools response becomes one table row, in order, with its display fields
    chosen through fixed `||` fallback chains and `== null` guards. */
module TrendingPools {
  import opened Nullable
  import opened Js

  /** The number `Number(arg)` yields. Coercion of strings (and the NaN it
      can produce) is left uninterpreted: only whether the field is null,
      and whether the coercion throws, is modelled. */
  datatype NumberOf = NumberOf(arg: JsValue)

  /** The text `x.toFixed(2)` yields, left uninterpreted. */
  datatype FixedTwo = FixedTwo(x: real)

  /** One row of the trending table. The `||` chains return whichever
      operand they stop at, so `name`, `url` and `dex` are JSON values, not
      necessarily strings. */
  datatype PoolRow = PoolRow(
    id: JsValue,
    name: JsValue,
    priceUsd: Option<NumberOf>,
    change24h: Option<FixedTwo>,
    volume24h: Option<NumberOf>,
    url: JsValue,
    dex: JsValue)

  const UnknownName: JsValue := Str("unknown")
  const NoDex: JsValue := Str("")

  /** `item.attributes || {}`: the attribute object a row reads from. */
  function Attributes(item: JsValue): (a: JsValue)
    requires !IsNullish(item)
    ensures !IsNullish(a)
    ensures Truthy(Lookup(item, "attributes")) ==> a == Lookup(item, "attributes")
    ensures !Truthy(Lookup(item, "attributes")) ==> forall k :: Lookup(a, k).Undefined?
  {
    var attrs := Lookup(item, "attributes");
    if Truthy(attrs) then attrs else Obj(map[])
  }

  /** `a.<key>` for an item's attribute object. */
  function Field(item: JsValue, key: string): (r: JsValue)
    requires !IsNullish(item)
  {
    Lookup(Attributes(item), key)
  }

  /** `v == null ? null : Number(v)`: only null and undefined give null, so
      a zero or an empty string still gives a number; the coercion throws
      for an object or array whose conversion to a primitive throws. */
  function NumberOrNull(v: JsValue): (r: Result<Option<NumberOf>, TypeError>)
    ensures r.Failure? <==> !IsNullish(v) && ToPrimitiveThrows(v)
    ensures r.Success? ==> (r.value.None? <==> IsNullish(v))
    ensures r.Success? && r.value.Some? ==> r.value.value.arg == v
  {
    if IsNullish(v) then Success(None)
    else if ToPrimitiveThrows(v) then Failure(TypeError)
    else Success(Some(NumberOf(v)))
  }

  /** `v == null ? null : v.toFixed(2)`: a value that is neither nullish nor
      a number has no `toFixed` method, and calling it throws. */
  function FixedOrNull(v: JsValue): (r: Result<Option<FixedTwo>, TypeError>)
    ensures r.Failure? <==> !IsNullish(v) && !v.Num?
    ensures r.Success? ==> (r.value.None? <==> IsNullish(v))
    ensures r.Success? && r.value.Some? ==> v == Num(r.value.value.x)
  {
    if IsNullish(v) then Success(None)
    else if v.Num? then Success(Some(FixedTwo(v.n)))
    else Failure(TypeError)
  }

  /** The response-level fallback link `poolsRaw.links?.self`. */
  function SelfLink(raw: JsValue): (r: JsValue)
    requires !IsNullish(raw)
  {
    OptionalProp(Lookup(raw, "links"), "self")
  }

  /** An item whose row cannot be built: reading `item.attributes` on a
      null item throws, `Number()` throws on a price or volume whose
      conversion to a primitive throws, and `toFixed` throws on a 24h change
      that is neither null nor a number. */
  predicate RowThrows(item: JsValue) {
    || IsNullish(item)
    || NumberOrNull(Field(item, "base_token_price_usd")).Failure?
    || FixedOrNull(Field(item, "price_change_percentage_24h")).Failure?
    || NumberOrNull(Field(item, "volume_usd_24h")).Failure?
  }

  /** The callback of `poolsRaw.data.map`, with `self` the response's
      fallback link. */
  function DeriveRow(item: JsValue, self: JsValue): (r: Result<PoolRow, TypeError>)
    ensures r.Failure? <==> RowThrows(item)
    ensures r.Success? ==> r.value.id == Lookup(item, "id")
    // name: attributes.name, else base_token_symbol, else "unknown"
    ensures r.Success? && Truthy(Field(item, "name")) ==> r.value.name == Field(item, "name")
    ensures r.Success? && !Truthy(Field(item, "name")) && Truthy(Field(item, "base_token_symbol")) ==>
              r.value.name == Field(item, "base_token_symbol")
    ensures r.Success? && !Truthy(Field(item, "name")) && !Truthy(Field(item, "base_token_symbol")) ==>
              r.value.name == UnknownName
    // dex: the first truthy of dex, dex_slug, dex_name, else ""
    ensures r.Success? && Truthy(Field(item, "dex")) ==> r.value.dex == Field(item, "dex")
    ensures r.Success? && !Truthy(Field(item, "dex")) && Truthy(Field(item, "dex_slug")) ==>
              r.value.dex == Field(item, "dex_slug")
    ensures (r.Success? && !Truthy(Field(item, "dex")) && !Truthy(Field(item, "dex_slug"))
             && Truthy(Field(item, "dex_name"))) ==> r.value.dex == Field(item, "dex_name")
    ensures (r.Success? && !Truthy(Field(item, "dex")) && !Truthy(Field(item, "dex_slug"))
             && !Truthy(Field(item, "dex_name"))) ==> r.value.dex == NoDex
    // url: trade_url, else the response's self link, else null
    ensures r.Success? && Truthy(Field(item, "trade_url")) ==> r.value.url == Field(item, "trade_url")
    ensures r.Success? && !Truthy(Field(item, "trade_url")) && Truthy(self) ==> r.value.url == self
    ensures r.Success? && !Truthy(Field(item, "trade_url")) && !Truthy(self) ==> r.value.url.Null?
    // price, change and volume are null exactly when their field is null or undefined
    ensures r.Success? ==> (r.value.priceUsd.None? <==> IsNullish(Field(item, "base_token_price_usd")))
    ensures r.Success? ==> (r.value.change24h.None? <==> IsNullish(Field(item, "price_change_percentage_24h")))
    ensures r.Success? ==> (r.value.volume24h.None? <==> IsNullish(Field(item, "volume_usd_24h")))
    // each of them comes from its own field
    ensures r.Success? && r.value.priceUsd.Some? ==>
              r.value.priceUsd.value == NumberOf(Field(item, "base_token_price_usd"))
    ensures r.Success? && r.value.change24h.Some? ==>
              Field(item, "price_change_percentage_24h") == Num(r.value.change24h.value.x)
    ensures r.Success? && r.value.volume24h.Some? ==>
              r.value.volume24h.value == NumberOf(Field(item, "volume_usd_24h"))
  {
    if GetProp(item, "attributes").Failure? then
      Failure(TypeError)
    else
      var dex := Or([Field(item, "dex"), Field(item, "dex_slug"), Field(item, "dex_name"), NoDex]);
      DexChain(Field(item, "dex"), Field(item, "dex_slug"), Field(item, "dex_name"));
      var name := Or([Field(item, "name"), Field(item, "base_token_symbol"), UnknownName]);
      TwoStepChain(Field(item, "name"), Field(item, "base_token_symbol"), UnknownName);
      var url := Or([Field(item, "trade_url"), self, Null]);
      TwoStepChain(Field(item, "trade_url"), self, Null);
      var price := NumberOrNull(Field(item, "base_token_price_usd"));
      var change := FixedOrNull(Field(item, "price_change_percentage_24h"));
      var volume := NumberOrNull(Field(item, "volume_usd_24h"));
      if price.Failure? || change.Failure? || volume.Failure? then
        Failure(TypeError)
      else
        Success(PoolRow(Lookup(item, "id"), name, price.value, change.value, volume.value, url, dex))
  }

  /** `a || b || c` picks by priority. */
  lemma TwoStepChain(a: JsValue, b: JsValue, c: JsValue)
    ensures Or([a, b, c]) == if Truthy(a) then a else if Truthy(b) then b else c
  {
    var xs := [a, b, c];
    if !Truthy(a) {
      assert xs[1..] == [b, c];
      if !Truthy(b) {
        assert xs[1..][1..] == [c];
      }
    }
  }

  /** `a || b || c || d` picks by priority. */
  lemma DexChain(a: JsValue, b: JsValue, c: JsValue)
    ensures Or([a, b, c, NoDex]) ==
              if Truthy(a) then a else if Truthy(b) then b else if Truthy(c) then c else NoDex
  {
    var xs := [a, b, c, NoDex];
    if !Truthy(a) {
      assert xs[1..] == [b, c, NoDex];
      TwoStepChain(b, c, NoDex);
    }
  }

  /** `poolsRaw.data.map(...)`: one row per item, in order; it throws as
      soon as one item's row throws. */
  function MapRows(items: seq<JsValue>, self: JsValue): (r: Result<seq<PoolRow>, TypeError>)
    ensures r.Failure? <==> exists i :: 0 <= i < |items| && RowThrows(items[i])
    ensures r.Success? ==> |r.value| == |items|
    ensures r.Success? ==> forall i :: 0 <= i < |items| ==> DeriveRow(items[i], self) == Success(r.value[i])
  {
    if |items| == 0 then
      Success([])
    else
      match DeriveRow(items[0], self)
      case Failure(e) => Failure(e)
      case Success(row) =>
        match MapRows(items[1..], self)
        case Failure(e) =>
          ThrowInTail(items);
          Failure(e)
        case Success(rows) =>
          var all := [row] + rows;
          MapStep(items, self, row, rows, all);
          Success(all)
  }

  /** One step of the map: a built head row in front of the tail's rows. */
  lemma MapStep(items: seq<JsValue>, self: JsValue, row: PoolRow, rows: seq<PoolRow>, all: seq<PoolRow>)
    requires |items| > 0 && DeriveRow(items[0], self) == Success(row)
    requires !exists i :: 0 <= i < |items[1..]| && RowThrows(items[1..][i])
    requires |rows| == |items| - 1
    requires forall i :: 0 <= i < |items[1..]| ==> DeriveRow(items[1..][i], self) == Success(rows[i])
    requires all == [row] + rows
    ensures !exists i :: 0 <= i < |items| && RowThrows(items[i])
    ensures |all| == |items|
    ensures forall i :: 0 <= i < |items| ==> DeriveRow(items[i], self) == Success(all[i])
  {
    forall i | 0 <= i < |items|
      ensures !RowThrows(items[i]) && DeriveRow(items[i], self) == Success(all[i])
    {
      if i > 0 {
        assert items[i] == items[1..][i - 1] && all[i] == rows[i - 1];
      }
    }
  }

  lemma ThrowInTail(items: seq<JsValue>)
    requires |items| > 0
    requires exists i :: 0 <= i < |items[1..]| && RowThrows(items[1..][i])
    ensures exists i :: 0 <= i < |items| && RowThrows(items[i])
  {
    var i :| 0 <= i < |items[1..]| && RowThrows(items[1..][i]);
    assert items[i + 1] == items[1..][i];
  }

  /** The `trending` memo. A falsy response, or one whose `data` is falsy,
      gives no rows; a truthy `data` that is not an array has no `map` and
      throws; otherwise each item gives one row, in order, with its `id`
      copied unchanged. */
  function DeriveRows(raw: JsValue): (r: Result<seq<PoolRow>, TypeError>)
    ensures !Truthy(raw) ==> r == Success([])
    ensures Truthy(raw) && !Truthy(Lookup(raw, "data")) ==> r == Success([])
    ensures Truthy(raw) && Truthy(Lookup(raw, "data")) && !Lookup(raw, "data").Arr? ==> r.Failure?
    ensures Truthy(raw) && Lookup(raw, "data").Arr? ==>
              var items := Lookup(raw, "data").items;
              && (r.Failure? <==> exists i :: 0 <= i < |items| && RowThrows(items[i]))
              && (r.Success? ==> |r.value| == |items|)
              && (r.Success? ==> forall i :: 0 <= i < |items| ==>
                                   && r.value[i].id == Lookup(items[i], "id")
                                   && Success(r.value[i]) == DeriveRow(items[i], SelfLink(raw)))
  {
    if !Truthy(raw) then
      Success([])
    else
      var data := Lookup(raw, "data");
      if !Truthy(data) then
        Success([])
      else if !data.Arr? then
        Failure(TypeError)
      else
        MapRows(data.items, SelfLink(raw))
  }

  /** A response whose `data` is the empty array has no rows and no error. */
  lemma EmptyDataHasNoRows(raw: JsValue)
    requires raw.Obj? && "data" in raw.props && raw.props["data"] == Arr([])
    ensures DeriveRows(raw) == Success([])
  {
  }

  /** An item whose attributes are `{dex: "", dex_slug: "vortex"}`: the empty
      `dex` is falsy, so the row's dex is "vortex". */
  lemma EmptyDexFallsThrough(self: JsValue)
    ensures
      var item := Obj(map["id" := Str("p"),
                          "attributes" := Obj(map["dex" := Str(""), "dex_slug" := Str("vortex")])]);
      DeriveRow(item, self).Success? && DeriveRow(item, self).value.dex == Str("vortex")
  {
    var attrs := Obj(map["dex" := Str(""), "dex_slug" := Str("vortex")]);
    var item := Obj(map["id" := Str("p"), "attributes" := attrs]);
    assert Attributes(item) == attrs;
    assert Field(item, "dex") == Str("");
    assert Field(item, "dex_slug") == Str("vortex");
    assert Field(item, "price_change_percentage_24h") == Undefined;
    assert Field(item, "base_token_price_usd") == Undefined;
    assert Field(item, "volume_usd_24h") == Undefined;
    assert !RowThrows(item);
    var r := DeriveRow(item, self);
    assert r.Success?;
    assert !Truthy(Field(item, "dex")) && Truthy(Field(item, "dex_slug"));
  }

  /** A price given as an object with its own `toString` field, such as
      `{"toString": 0}`, cannot be converted by `Number()`: the row throws,
      and with it the whole table. */
  lemma PriceWithOwnToStringThrows(self: JsValue)
    ensures
      var price := Obj(map["toString" := Num(0.0)]);
      var item := Obj(map["id" := Str("p"), "attributes" := Obj(map["base_token_price_usd" := price])]);
      && DeriveRow(item, self).Failure?
      && DeriveRows(Obj(map["data" := Arr([item])])).Failure?
  {
    var price := Obj(map["toString" := Num(0.0)]);
    var attrs := Obj(map["base_token_price_usd" := price]);
    var item := Obj(map["id" := Str("p"), "attributes" := attrs]);
    assert Attributes(item) == attrs;
    assert Field(item, "base_token_price_usd") == price;
    assert ToPrimitiveThrows(price);
    assert RowThrows(item);
    var raw := Obj(map["data" := Arr([item])]);
    assert Lookup(raw, "data") == Arr([item]);
    assert Lookup(raw, "data").items[0] == item;
  }
}

=== FILE: tvl_history.dfy ===
/** The TVL pipeline of the dashboard page: the raw history payload is
    normalised into time-ordered points, from which the page derives the
    current and previous value, the day-over-day percentage, the point count
    with its "since" day, and the last-60-point chart series. */
module TvlHistory {
  import opened Nullable
  import opened Js
  import opened TimeSort

  const MsPerSecond: real := 1000.0
  const MsPerDay: int := 86_400_000
  /** How many trailing points the chart shows (`slice(-60)`). */
  const ChartWindow: nat := 60

  /** The filter of the normalisation: both `tvl` and `date` have
      `typeof === "number"`. */
  predicate IsNumericEntry(e: JsValue) {
    !IsNullish(e) && Lookup(e, "tvl").Num? && Lookup(e, "date").Num?
  }

  /** `new Date(seconds * 1000).getTime()`: milliseconds, with any fraction
      of a millisecond dropped toward zero. */
  function EpochMillis(seconds: real): (ms: int)
    ensures seconds >= 0.0 ==> ms as real <= seconds * MsPerSecond < ms as real + 1.0
    ensures seconds < 0.0 ==> ms as real - 1.0 < seconds * MsPerSecond <= ms as real
    ensures forall k: int {:trigger k * 1000} :: seconds == k as real ==> ms == k * 1000
  {
    Trunc(seconds * MsPerSecond)
  }

  /** The map step: `{ date: new Date(p.date * 1000), tvl: p.tvl }`. */
  function ToPoint(e: JsValue): (p: TvlPoint)
    requires IsNumericEntry(e)
    ensures p.time == EpochMillis(Lookup(e, "date").n) && p.tvl == Lookup(e, "tvl").n
  {
    TvlPoint(EpochMillis(Lookup(e, "date").n), Lookup(e, "tvl").n)
  }

  /** Reference meaning of the filter-and-map: the numeric entries, in their
      original order, each converted to a point. */
  ghost function NumericPoints(es: seq<JsValue>): seq<TvlPoint> {
    if |es| == 0 then []
    else if IsNumericEntry(es[0]) then [ToPoint(es[0])] + NumericPoints(es[1..])
    else NumericPoints(es[1..])
  }

  /** `tvlRaw.filter(p => typeof p.tvl === "number" && typeof p.date === "number")`.
      Reading `p.tvl` throws when an element is null or undefined, so the
      filter fails exactly when such an element exists; otherwise it keeps
      every numeric entry as often as it occurs and nothing else. */
  function KeepNumeric(es: seq<JsValue>): (r: Result<seq<JsValue>, TypeError>)
    ensures r.Failure? <==> exists i :: 0 <= i < |es| && IsNullish(es[i])
    ensures r.Success? ==>
              forall x :: multiset(r.value)[x] == if IsNumericEntry(x) then multiset(es)[x] else 0
    ensures r.Success? ==> forall i :: 0 <= i < |r.value| ==> IsNumericEntry(r.value[i])
  {
    if |es| == 0 then
      Success([])
    else if GetProp(es[0], "tvl").Failure? then
      Failure(TypeError)
    else
      match KeepNumeric(es[1..])
      case Failure(e) =>
        NullishInTail(es);
        Failure(e)
      case Success(rest) =>
        var kept := if IsNumericEntry(es[0]) then [es[0]] + rest else rest;
        KeepStep(es, rest, kept);
        Success(kept)
  }

  lemma NullishInTail(es: seq<JsValue>)
    requires |es| > 0
    requires exists i :: 0 <= i < |es[1..]| && IsNullish(es[1..][i])
    ensures exists i :: 0 <= i < |es| && IsNullish(es[i])
  {
    var i :| 0 <= i < |es[1..]| && IsNullish(es[1..][i]);
    assert es[i + 1] == es[1..][i];
  }

  /** One step of the filter: keeping or dropping the head preserves the
      counting characterisation of the kept entries. */
  lemma KeepStep(es: seq<JsValue>, rest: seq<JsValue>, kept: seq<JsValue>)
    requires |es| > 0 && !IsNullish(es[0])
    requires !exists i :: 0 <= i < |es[1..]| && IsNullish(es[1..][i])
    requires forall x :: multiset(rest)[x] == if IsNumericEntry(x) then multiset(es[1..])[x] else 0
    requires forall i :: 0 <= i < |rest| ==> IsNumericEntry(rest[i])
    requires kept == if IsNumericEntry(es[0]) then [es[0]] + rest else rest
    ensures !exists i :: 0 <= i < |es| && IsNullish(es[i])
    ensures forall x :: multiset(kept)[x] == if IsNumericEntry(x) then multiset(es)[x] else 0
    ensures forall i :: 0 <= i < |kept| ==> IsNumericEntry(kept[i])
  {
    assert es == [es[0]] + es[1..];
    assert multiset(es) == multiset{es[0]} + multiset(es[1..]);
    forall i | 0 <= i < |es|
      ensures !IsNullish(es[i])
    {
      if i > 0 {
        assert es[i] == es[1..][i - 1];
      }
    }
    if IsNumericEntry(es[0]) {
      assert multiset(kept) == multiset{es[0]} + multiset(rest);
      forall i | 0 <= i < |kept|
        ensures IsNumericEntry(kept[i])
      {
        if i > 0 {
          assert kept[i] == rest[i - 1];
        }
      }
    }
  }

  function ToPoints(kept: seq<JsValue>): (r: seq<TvlPoint>)
    requires forall i :: 0 <= i < |kept| ==> IsNumericEntry(kept[i])
    ensures |r| == |kept|
  {
    seq(|kept|, i requires 0 <= i < |kept| => ToPoint(kept[i]))
  }

  /** The `tvl` memo: a payload that is not an array gives no points;
      otherwise the numeric entries, converted, sorted ascending by time.
      The result is a permutation of the numeric entries' points. */
  function Normalize(raw: JsValue): (r: Result<seq<TvlPoint>, TypeError>)
    ensures !raw.Arr? ==> r == Success([])
    ensures raw.Arr? ==>
              (r.Failure? <==> exists i :: 0 <= i < |raw.items| && IsNullish(raw.items[i]))
    ensures r.Success? ==> SortedByTime(r.value)
    ensures r.Success? && raw.Arr? ==> multiset(r.value) == multiset(NumericPoints(raw.items))
  {
    if !raw.Arr? then
      Success([])
    else
      match KeepNumeric(raw.items)
      case Failure(e) => Failure(e)
      case Success(kept) =>
        KeptPointsAreNumericPoints(raw.items);
        Success(SortByTime(ToPoints(kept)))
  }

  lemma {:induction false} KeptPointsAreNumericPoints(es: seq<JsValue>)
    requires KeepNumeric(es).Success?
    ensures ToPoints(KeepNumeric(es).value) == NumericPoints(es)
  {
    if |es| > 0 {
      var tail := KeepNumeric(es[1..]);
      assert tail.Success? by {
        if tail.Failure? {
          NullishInTail(es);
        }
      }
      KeptPointsAreNumericPoints(es[1..]);
      if IsNumericEntry(es[0]) {
        assert KeepNumeric(es).value == [es[0]] + tail.value;
        ToPointsCons(es[0], tail.value);
      } else {
        assert KeepNumeric(es).value == tail.value;
      }
    }
  }

  lemma ToPointsCons(e: JsValue, rest: seq<JsValue>)
    requires IsNumericEntry(e)
    requires forall i :: 0 <= i < |rest| ==> IsNumericEntry(rest[i])
    ensures ToPoints([e] + rest) == [ToPoint(e)] + ToPoints(rest)
  {
    var all := [e] + rest;
    assert forall i :: 1 <= i < |all| ==> all[i] == rest[i - 1];
  }

  /** A point is in the normalised history exactly when some raw entry is
      numeric and converts to it. */
  lemma {:induction false} NumericPointsMembership(es: seq<JsValue>, p: TvlPoint)
    ensures p in NumericPoints(es) <==>
              exists i :: 0 <= i < |es| && IsNumericEntry(es[i]) && ToPoint(es[i]) == p
  {
    if |es| > 0 {
      NumericPointsMembership(es[1..], p);
      if exists i :: 0 <= i < |es| && IsNumericEntry(es[i]) && ToPoint(es[i]) == p {
        var i :| 0 <= i < |es| && IsNumericEntry(es[i]) && ToPoint(es[i]) == p;
        if i > 0 {
          assert es[1..][i - 1] == es[i];
        }
      }
      if p in NumericPoints(es[1..]) {
        var i :| 0 <= i < |es[1..]| && IsNumericEntry(es[1..][i]) && ToPoint(es[1..][i]) == p;
        assert es[i + 1] == es[1..][i];
      }
    }
  }

  /** `tvlNow`: the last point's value, null for an empty history. */
  function Current(tvl: seq<TvlPoint>): (r: Option<real>)
    ensures r.None? <==> |tvl| == 0
    ensures r.Some? ==> r.value == tvl[|tvl| - 1].tvl
  {
    if |tvl| > 0 then Some(tvl[|tvl| - 1].tvl) else None
  }

  /** `tvlPrev`: the second-to-last point's value, null below two points. */
  function Previous(tvl: seq<TvlPoint>): (r: Option<real>)
    ensures r.None? <==> |tvl| < 2
    ensures r.Some? ==> r.value == tvl[|tvl| - 2].tvl
  {
    if |tvl| > 1 then Some(tvl[|tvl| - 2].tvl) else None
  }

  /** `tvlDelta`: `((now - prev) / Math.max(1, prev)) * 100` when both are
      present. The divisor is at least 1, so the division is always defined,
      and the sign of the result is the sign of the change. */
  function PercentChange(now: Option<real>, prev: Option<real>): (r: Option<real>)
    ensures r.None? <==> now.None? || prev.None?
    ensures r.Some? ==> r.value * MaxReal(1.0, prev.value) == (now.value - prev.value) * 100.0
    ensures r.Some? ==> (r.value >= 0.0 <==> now.value >= prev.value)
    ensures r.Some? && prev.value >= 1.0 ==> r.value * prev.value == (now.value - prev.value) * 100.0
  {
    if now.Some? && prev.Some? then
      var denominator := MaxReal(1.0, prev.value);
      Some(((now.value - prev.value) / denominator) * 100.0)
    else
      None
  }

  function Delta(tvl: seq<TvlPoint>): (r: Option<real>) {
    PercentChange(Current(tvl), Previous(tvl))
  }

  /** The delta exists exactly when there are two points, and then relates
      the last two values through a divisor of at least 1. */
  lemma DeltaOfHistory(tvl: seq<TvlPoint>)
    ensures Delta(tvl).None? <==> |tvl| < 2
    ensures |tvl| >= 2 ==>
              var now := tvl[|tvl| - 1].tvl;
              var prev := tvl[|tvl| - 2].tvl;
              Delta(tvl) == Some((now - prev) / MaxReal(1.0, prev) * 100.0)
  {
  }

  /** In a time-ordered history the current value belongs to a point no
      earlier than any other, and the previous value to a point no later
      than that one. */
  lemma CurrentIsLatest(tvl: seq<TvlPoint>)
    requires SortedByTime(tvl) && |tvl| > 0
    ensures exists k :: 0 <= k < |tvl| && Current(tvl) == Some(tvl[k].tvl)
                        && forall i :: 0 <= i < |tvl| ==> tvl[i].time <= tvl[k].time
    ensures |tvl| > 1 ==> tvl[|tvl| - 2].time <= tvl[|tvl| - 1].time
  {
    SortedEnds(tvl);
    assert Current(tvl) == Some(tvl[|tvl| - 1].tvl);
  }

  /** The last point of a time-sorted arrangement of the numeric entries'
      points comes from a numeric entry that no other numeric entry
      follows. */
  lemma LatestIsNumericEntry(es: seq<JsValue>, tvl: seq<TvlPoint>, current: real)
    requires SortedByTime(tvl) && |tvl| > 0 && current == tvl[|tvl| - 1].tvl
    requires multiset(tvl) == multiset(NumericPoints(es))
    ensures exists i :: 0 <= i < |es| && IsNumericEntry(es[i])
              && Lookup(es[i], "tvl").n == current
              && forall j :: 0 <= j < |es| && IsNumericEntry(es[j]) ==> ToPoint(es[j]).time <= ToPoint(es[i]).time
  {
    var last := tvl[|tvl| - 1];
    SortedEnds(tvl);
    assert last in multiset(NumericPoints(es));
    NumericPointsMembership(es, last);
    var i :| 0 <= i < |es| && IsNumericEntry(es[i]) && ToPoint(es[i]) == last;
    forall j | 0 <= j < |es| && IsNumericEntry(es[j])
      ensures ToPoint(es[j]).time <= last.time
    {
      NumericPointsMembership(es, ToPoint(es[j]));
      assert ToPoint(es[j]) in multiset(tvl);
    }
  }

  /** The UTC calendar day of a millisecond time: the day whose
      `toISOString().slice(0, 10)` label the page prints. */
  function UtcDay(ms: int): (d: int)
    ensures d * MsPerDay <= ms < (d + 1) * MsPerDay
  {
    ms / MsPerDay
  }

  lemma UtcDayMonotone(a: int, b: int)
    requires a <= b
    ensures UtcDay(a) <= UtcDay(b)
  {
  }

  /** The "since" label: the day of the first normalised point. */
  function Since(tvl: seq<TvlPoint>): (r: Option<int>)
    ensures r.None? <==> |tvl| == 0
    ensures r.Some? ==> r.value == UtcDay(tvl[0].time)
  {
    if |tvl| > 0 then Some(UtcDay(tvl[0].time)) else None
  }

  /** On a time-ordered history the "since" day is the day of a point no
      later than any other, and no later than the day of any point. */
  lemma SinceIsEarliest(tvl: seq<TvlPoint>)
    requires SortedByTime(tvl) && |tvl| > 0
    ensures exists k :: 0 <= k < |tvl| && Since(tvl) == Some(UtcDay(tvl[k].time))
                        && forall i :: 0 <= i < |tvl| ==> tvl[k].time <= tvl[i].time
    ensures forall i :: 0 <= i < |tvl| ==> Since(tvl).value <= UtcDay(tvl[i].time)
  {
    SortedEnds(tvl);
    assert Since(tvl) == Some(UtcDay(tvl[0].time));
    forall i | 0 <= i < |tvl|
      ensures Since(tvl).value <= UtcDay(tvl[i].time)
    {
      UtcDayMonotone(tvl[0].time, tvl[i].time);
    }
  }

  /** One chart sample: `x` is the UTC day label, `y` the rounded value. */
  datatype ChartSample = ChartSample(day: int, y: int)

  function Sample(p: TvlPoint): (c: ChartSample)
    ensures c.day * MsPerDay <= p.time < (c.day + 1) * MsPerDay
    ensures c.y as real - 0.5 <= p.tvl < c.y as real + 0.5
  {
    ChartSample(UtcDay(p.time), Round(p.tvl))
  }

  /** The `tvlChart` memo: the samples of the last at most 60 points, in
      order. */
  function Chart(tvl: seq<TvlPoint>): (r: seq<ChartSample>)
    ensures |r| == Min(ChartWindow, |tvl|)
    ensures forall i :: 0 <= i < |r| ==> r[i] == Sample(tvl[|tvl| - |r| + i])
  {
    var last := SliceFrom(tvl, -(ChartWindow as int));
    seq(|last|, i requires 0 <= i < |last| => Sample(last[i]))
  }

  /** The chart ends on the current value, rounded, and its days never go
      backwards over a time-ordered history. */
  lemma ChartFollowsHistory(tvl: seq<TvlPoint>)
    requires SortedByTime(tvl)
    ensures |tvl| > 0 ==> Chart(tvl)[|Chart(tvl)| - 1].y == Round(Current(tvl).value)
    ensures forall i, j :: 0 <= i < j < |Chart(tvl)| ==> Chart(tvl)[i].day <= Chart(tvl)[j].day
  {
    var c := Chart(tvl);
    forall i, j | 0 <= i < j < |c|
      ensures c[i].day <= c[j].day
    {
      UtcDayMonotone(tvl[|tvl| - |c| + i].time, tvl[|tvl| - |c| + j].time);
    }
  }

  /** Everything the page shows about the TVL history. */
  datatype TvlSummary = TvlSummary(
    count: nat,
    current: Option<real>,
    previous: Option<real>,
    delta: Option<real>,
    since: Option<int>,
    chart: seq<ChartSample>)

  /** The summary is consistent: metrics and labels are present exactly as
      far as the point count allows, and the chart never exceeds its window. */
  function Summarize(tvl: seq<TvlPoint>): (r: TvlSummary)
    ensures r.count == |tvl|
    ensures r.current.None? <==> r.count == 0
    ensures r.since.None? <==> r.count == 0
    ensures r.previous.None? <==> r.count < 2
    ensures r.delta.None? <==> r.count < 2
    ensures |r.chart| == Min(ChartWindow, r.count)
    ensures r.count > 0 ==> r.chart[|r.chart| - 1].y == Round(r.current.value)
    // the values shown: last and second-to-last point, their percentage
    // change, the first point's day, and the trailing window of samples
    ensures r.current.Some? ==> r.current.value == tvl[|tvl| - 1].tvl
    ensures r.previous.Some? ==> r.previous.value == tvl[|tvl| - 2].tvl
    ensures r.delta.Some? ==>
              r.delta.value * MaxReal(1.0, r.previous.value) == (r.current.value - r.previous.value) * 100.0
    ensures r.since.Some? ==> r.since.value == UtcDay(tvl[0].time)
    ensures forall i :: 0 <= i < |r.chart| ==> r.chart[i] == Sample(tvl[|tvl| - |r.chart| + i])
  {
    DeltaOfHistory(tvl);
    TvlSummary(|tvl|, Current(tvl), Previous(tvl), Delta(tvl), Since(tvl), Chart(tvl))
  }

  /** A payload that is not an array (null before the first response, an
      error object, a wrapped document) shows as an empty history. */
  lemma NonArrayPayloadIsEmpty(raw: JsValue)
    requires !raw.Arr?
    ensures Normalize(raw) == Success([])
    ensures Summarize(Normalize(raw).value) == TvlSummary(0, None, None, None, None, [])
  {
  }

  /** The two-point history `[{date: 2000, tvl: 15}, {date: 1000, tvl: 10}]`
      normalises to the two points in time order, in milliseconds. */
  lemma TwoPointNormalize()
    ensures
      var e1 := Obj(map["date" := Num(1000.0), "tvl" := Num(10.0)]);
      var e2 := Obj(map["date" := Num(2000.0), "tvl" := Num(15.0)]);
      Normalize(Arr([e2, e1])) == Success([TvlPoint(1_000_000, 10.0), TvlPoint(2_000_000, 15.0)])
  {
    var e1 := Obj(map["date" := Num(1000.0), "tvl" := Num(10.0)]);
    var e2 := Obj(map["date" := Num(2000.0), "tvl" := Num(15.0)]);
    var p1 := TvlPoint(1_000_000, 10.0);
    var p2 := TvlPoint(2_000_000, 15.0);
    assert IsNumericEntry(e1) && IsNumericEntry(e2);
    assert ToPoint(e1) == p1;
    assert ToPoint(e2) == p2;
    assert [e2, e1][1..] == [e1] && [e1][1..] == [];
    assert KeepNumeric([e1][1..]) == Success([]);
    assert [e1] + [] == [e1];
    assert KeepNumeric([e1]) == Success([e1]);
    assert [e2] + [e1] == [e2, e1];
    assert KeepNumeric([e2, e1][1..]) == Success([e1]);
    assert KeepNumeric([e2, e1]) == Success([e2, e1]);
    assert ToPoints([e2, e1]) == [p2, p1];
    assert [p2, p1][1..] == [p1] && [p1][1..] == [];
    assert SortByTime([p1]) == [p1];
    assert SortByTime([p2, p1]) == InsertByTime(p2, [p1]);
    assert InsertByTime(p2, [p1][1..]) == [p2];
    assert InsertByTime(p2, [p1]) == [p1, p2];
    assert Normalize(Arr([e2, e1])) == Success(SortByTime(ToPoints([e2, e1])));
  }

  /** Over those two points the page shows current 15, previous 10, a 50%
      rise, "since" day 0 (1970-01-01) and two samples on that day. */
  lemma TwoPointSummary()
    ensures
      Summarize([TvlPoint(1_000_000, 10.0), TvlPoint(2_000_000, 15.0)])
        == TvlSummary(2, Some(15.0), Some(10.0), Some(50.0), Some(0),
                      [ChartSample(0, 10), ChartSample(0, 15)])
  {
    var tvl := [TvlPoint(1_000_000, 10.0), TvlPoint(2_000_000, 15.0)];
    assert Delta(tvl) == Some(50.0);
    assert UtcDay(1_000_000) == 0 && UtcDay(2_000_000) == 0;
    assert Round(10.0) == 10 && Round(15.0) == 15;
    var c := Chart(tvl);
    assert |c| == 2;
    assert c == [ChartSample(0, 10), ChartSample(0, 15)];
  }
}
